=== FILE: README.md ===
# Paginated data source and dropdown rules, in Dafny

This project models the core of `ngx-paginated`:

- **`PaginatedDataSource<T>`** is a state machine. It turns a page-fetching function into a replay-latest stream of items, in one of two modes:
  - accumulated (`concatData`);
  - replaced (each fetch replaces the visible set).

  It also tracks `loading`, `hasMore`, `currentPage`, `query` and `totalItems`.
- **`PaginatedDropdownComponent`**'s pure rules:
  - the empty-results test;
  - the enriched option list, with a "no results" placeholder and selection marking;
  - the keep-while-loading rule for the displayed list;
  - the scroll handler that decides when to emit `loadMore`;
  - the viewport refresh.
- **The demo application's `fetchItems`**: it filters by query and cuts out one page with `Array.prototype.slice`.

Modules:

| file | module | contents |
|---|---|---|
| `options.dfy` | `Options` | `Option` for TypeScript's optional fields and `??` |
| `pagination_model.dfy` | `PaginationModel` | request, result, fetch outcome, constructor options |
| `paginated_data_source.dfy` | `PaginatedDataSource` | the state record and its operations |
| `paginated_dropdown.dfy` | `PaginatedDropdown` | the dropdown's rules |
| `demo_pager.dfy` | `DemoPager` | `fetchItems` and the page-concatenation theorem |
| `demo_session.dfy` | `DemoSession` | the data source driven by `fetchItems` |
| `data_source_scenarios.dfy` | `DataSourceScenarios` | the data source's four test scenarios as lemmas |

The state is an immutable record. The item stream is the sequence `published` of every snapshot pushed, oldest first. Its last element is what a new subscriber receives, and `Synced` states that it equals `items`.

`fetchPage` is split into two steps:

- `BeginFetch` is the synchronous start. It records the page, raises `loading`, clears the items in replace mode and builds the request.
- `CompleteFetch` applies the fetch's outcome to the state as it is when the outcome arrives.

The fetch function is a pure map from request to outcome. The configuration supplies it, and the state stores it as `fetchFn`. When the configuration has none, the state keeps `DefaultFetch`, which answers every request with an empty, final page (paginated-data-source.ts:18-19, 45). Calling the fetch function either throws at once (`Threw`) or returns an observable. A returned observable ends in one of three outcomes, matching how the one-shot observable can end:

- it emits a result;
- it errors, and the error is absorbed as an empty, final page;
- it completes without emitting, so only `loading` is cleared.

`Resolve` runs one issued fetch to its end with the stored fetch function.

A fetch function that throws is called outside `catchError` (paginated-data-source.ts:131-132), so the source does not absorb that error. The state stays as `BeginFetch` left it, with `loading` raised. `LoadNextPage` and `LoadPage` then refuse every request until `SetQuery`, `RefreshData` or `ReloadPage` starts a fetch that completes. Interleaved fetches are written as explicit sequences of begin and complete steps.

The scroll percentage is computed in exact `real` arithmetic. `ScrollPercentageBelow` shows that the threshold test is the integer comparison `(index + itemsInDropdown) * 100 < scrollThreshold * count`.

## Model

| member | source | states |
|---|---|---|
| PaginatedDataSource.Initial | libs/paginated-data-source/src/lib/paginated-data-source.ts:14-47 | A new data source starts not loading, on page 0, with an empty query, no items, `hasMore` true and 0 total items; `[]` is the only published snapshot. Page size defaults to 10, concatenation defaults to on, and the fetch function defaults to the empty-page fetch. |
| PaginatedDataSource.Construct | libs/paginated-data-source/src/lib/paginated-data-source.ts:37-50 | By default, construction issues exactly one request, for page 1 with the configured page size and the empty query. With `triggerInitialFetch` false it issues none and keeps the initial state. |
| PaginatedDataSource.BeginFetch | libs/paginated-data-source/src/lib/paginated-data-source.ts:118-130 | The request carries the page, the page size and the query. `currentPage` becomes the page and `loading` becomes true. Replace mode clears `items` and publishes `[]`; accumulate mode leaves `items` and the stream untouched. `hasMore`, `totalItems`, the query and the configuration are unchanged, and the stream stays in sync. |
| PaginatedDataSource.ApplyResult | libs/paginated-data-source/src/lib/paginated-data-source.ts:133-148 | In accumulate mode the new items are the old items followed by the page's items. In replace mode they are the page's items alone. The new list is published. `hasMore` is true only when the result says so, `totalItems` is the result's or 0, and `loading` ends false. Nothing else changes. |
| PaginatedDataSource.CompleteFetch | libs/paginated-data-source/src/lib/paginated-data-source.ts:131-151 | `loading` always ends false. A result is appended to the current items (accumulate) or replaces them (replace), and the new list is published. A missing `hasMore` reads as false and a missing `totalItems` as 0. An error keeps the items in accumulate mode, empties them in replace mode, and sets `hasMore` false and `totalItems` 0. A fetch that completes without emitting changes only `loading`. Page, query and configuration never change. |
| PaginatedDataSource.LoadNextPage | libs/paginated-data-source/src/lib/paginated-data-source.ts:71-77 | It issues no request, and changes nothing, exactly when `loading` is true or `hasMore` is false. Otherwise it begins a fetch of `currentPage + 1`. |
| PaginatedDataSource.LoadPage | libs/paginated-data-source/src/lib/paginated-data-source.ts:83-86 | It issues no request, and changes nothing, exactly when `loading` is true. Otherwise it begins a fetch of the given page. |
| PaginatedDataSource.ResetPaginationState | libs/paginated-data-source/src/lib/paginated-data-source.ts:154-160 | The items are emptied and `[]` is published. `currentPage` becomes 0, `hasMore` true and `totalItems` 0. `loading`, the query and the configuration are left as they were. |
| PaginatedDataSource.SetQuery | libs/paginated-data-source/src/lib/paginated-data-source.ts:92-96 | It requests page 1 with the new query. It empties the items (publishing `[]`), sets `hasMore` true and `totalItems` 0, and leaves `currentPage` at 1 and `loading` true. Page size, mode and fetch function are kept, and the stream stays in sync. |
| PaginatedDataSource.RefreshData | libs/paginated-data-source/src/lib/paginated-data-source.ts:101-105 | It behaves exactly as `SetQuery` with the empty query. |
| PaginatedDataSource.ReloadPage | libs/paginated-data-source/src/lib/paginated-data-source.ts:110-112 | It requests the current page (0 before any fetch) and is exactly `BeginFetch` of that page, so everything else is kept. `hasMore` and `totalItems` are kept. Accumulate mode keeps the items; replace mode empties them and publishes `[]`. |
| PaginatedDataSource.Resolve | libs/paginated-data-source/src/lib/paginated-data-source.ts:118-151 | Running an operation's fetch to its end. With no request nothing changes. A fetch function that throws leaves the begun state as it is. One that returns has its outcome (emitted, errored or completed) applied by `CompleteFetch` to the begun state. Query, page size, mode, fetch function and page are always kept, and the stream stays in sync. `loading` ends false exactly when a request was issued and the fetch function returned; otherwise it stays as it was (raised after a throw). |
| PaginatedDataSource.ThrowingFetchLeavesLoading | libs/paginated-data-source/src/lib/paginated-data-source.ts:118-131 | When the fetch function throws, the begun state is kept with `loading` true, and both `LoadNextPage` and `LoadPage` then issue no request. |
| PaginatedDataSource.StaleResultAfterSetQuery | libs/paginated-data-source/src/lib/paginated-data-source.ts:92-151 | Suppose a next-page fetch is in flight and `SetQuery` starts another. If the older fetch's result arrives first, it fills the new query's empty list with stale items and clears `loading`, although the newer fetch is still outstanding. This happens in both modes. |
| PaginatedDataSource.SetQueryIgnoresLoading | libs/paginated-data-source/src/lib/paginated-data-source.ts:92-96 | `SetQuery` gives the same request and state whether or not a fetch is in flight. |
| PaginatedDataSource.LoadPageIgnoresHasMore | libs/paginated-data-source/src/lib/paginated-data-source.ts:71-86 | When `hasMore` is false and nothing is loading, `LoadPage` still issues its request but `LoadNextPage` does not. |
| PaginatedDropdown.EmptyResultsShowPlaceholderOnly | libs/ui/paginated-dropdown/src/lib/paginated-dropdown/paginated-dropdown.component.ts:77-96 | When loading has finished with no items (`hasEmptyResults`), the displayed list is the placeholder alone, and every scroll event is ignored without asking for more. |
| PaginatedDropdown.CreatedShowsDefaultPlaceholder | libs/ui/paginated-dropdown/src/lib/paginated-dropdown/paginated-dropdown.component.ts:65-96 | A new dropdown with no items shows the default placeholder (id `__no_results__`, text `No results found.`, disabled). Because `hasMore` starts false, no scroll asks for more until the input says there is more. |
| PaginatedDropdown.ItemsEnriched | libs/ui/paginated-dropdown/src/lib/paginated-dropdown/paginated-dropdown.component.ts:77-96 | With empty results (not loading and no items), the list is the single disabled `__no_results__` option labelled with `noResultsText`. Otherwise it has one entry per item, in order, keeping id and `disabled`. Each entry is labelled through `displayOptionWith` when set, and selected exactly when its id is the selected value's id. |
| PaginatedDropdown.SyncDisplayedItems | libs/ui/paginated-dropdown/src/lib/paginated-dropdown/paginated-dropdown.component.ts:120-123 | Only `displayedItems` changes. It is kept while loading if non-empty; once not loading, or when it was empty, it becomes the enriched list. |
| PaginatedDropdown.SyncedListIsNeverBlank | libs/ui/paginated-dropdown/src/lib/paginated-dropdown/paginated-dropdown.component.ts:77-123 | After loading, the displayed list is never empty. It is the placeholder alone when there are no items, and one option per item otherwise. |
| PaginatedDropdown.SyncDisplayedItemsIdempotent | libs/ui/paginated-dropdown/src/lib/paginated-dropdown/paginated-dropdown.component.ts:120-123 | Re-running the display effect on its own output changes nothing. |
| PaginatedDropdown.ScrollPercentage | libs/ui/paginated-dropdown/src/lib/paginated-dropdown/paginated-dropdown.component.ts:165 | The percentage times the displayed count is `(index + itemsInDropdown) * 100`, so it is at least 100 once the viewport's end reaches the list's end. |
| PaginatedDropdown.ScrollPercentageBelow | libs/ui/paginated-dropdown/src/lib/paginated-dropdown/paginated-dropdown.component.ts:165-166 | Over a non-empty list, the percentage is below the threshold exactly when `(index + itemsInDropdown) * 100 < scrollThreshold * count`. |
| PaginatedDropdown.OnScroll | libs/ui/paginated-dropdown/src/lib/paginated-dropdown/paginated-dropdown.component.ts:157-168 | Nothing changes and nothing is emitted when there is no more data, a load is running, nothing is displayed, or the results are empty. The same holds for a backward or repeated scroll. A forward scroll records the index. It emits `loadMore` exactly when `(index + itemsInDropdown) * 100 >= scrollThreshold * displayedItems.length`. The remembered index never decreases. |
| PaginatedDropdown.DefaultThresholdExample | libs/ui/paginated-dropdown/src/lib/paginated-dropdown/paginated-dropdown.component.ts:165-167 | With the default threshold and visible-row count over 10 displayed options, scrolling to row 3 emits `loadMore` and scrolling to row 2 does not. |
| PaginatedDropdown.RepeatedScrollLoadsNothing | libs/ui/paginated-dropdown/src/lib/paginated-dropdown/paginated-dropdown.component.ts:162-164 | A second scroll event at the same index never emits `loadMore`. |
| PaginatedDropdown.RefreshViewport | libs/ui/paginated-dropdown/src/lib/paginated-dropdown/paginated-dropdown.component.ts:150-155 | With a viewport, the remembered scroll index becomes 0. Without one, nothing changes. Nothing else ever changes. |
| PaginatedDropdown.RefreshReenablesForwardScroll | libs/ui/paginated-dropdown/src/lib/paginated-dropdown/paginated-dropdown.component.ts:150-168 | After a refresh, any positive index counts as a forward scroll, even one behind the old remembered index. It is recorded and judged against the threshold. |
| DemoPager.Filter | apps/demo-app/src/app/app.ts:26-28 | The result is no longer than the input. Every kept item is an input item that matches, and every matching input item is kept. |
| DemoPager.FilterConcat | apps/demo-app/src/app/app.ts:26-28 | Filtering a concatenation concatenates the filtered parts, so the original order is kept. |
| DemoPager.QueryFilter | apps/demo-app/src/app/app.ts:24-28 | An absent or empty query leaves the list unfiltered. A non-empty query keeps exactly the matching items. |
| DemoPager.SliceIndex | apps/demo-app/src/app/app.ts:33 | A slice index ends up in `[0, len]`. A non-negative index is clipped to the length. A negative index counts from the end (`len + i`) and is floored at 0. |
| DemoPager.Slice | apps/demo-app/src/app/app.ts:33 | A slice from `start` to `end` holds at most `end - start` items, and ending at 0 gives nothing. For `0 <= start <= end` it is the list from `start` to `end`, both clipped to the length. For `start <= end < 0` both ends count from the list's end and are floored at 0. |
| DemoPager.FetchItems | apps/demo-app/src/app/app.ts:20-38 | `totalItems` is the filtered length, whatever the page. `hasMore` holds exactly when `page * pageSize` is below the filtered length. A page never holds more than `pageSize` items. |
| DemoPager.PageEndIsProduct | apps/demo-app/src/app/app.ts:31-32 | Page ends counted page by page (`PageEnd`) are the products `page * pageSize` the source computes. |
| DemoPager.FetchItemsIsClippedSlice | apps/demo-app/src/app/app.ts:31-34 | From page 1 on, the items are the filtered list from `PageEnd(page - 1, pageSize)` to `PageEnd(page, pageSize)`, clipped to its length. `hasMore` holds exactly when the list goes on past `PageEnd(page, pageSize)`. By `PageEndIsProduct` these ends are `(page - 1) * pageSize` and `page * pageSize`. |
| DemoPager.FetchItemsPageZero | apps/demo-app/src/app/app.ts:31-34 | Page 0, which a reload before any fetch requests, holds no items, yet `hasMore` is true whenever the filtered list is non-empty. |
| DemoPager.FetchItemsNegativePage | apps/demo-app/src/app/app.ts:31-33 | A negative page counts back from the end of the filtered list: it is the slice from `len + (page - 1) * pageSize` to `len + page * pageSize`, each floored at 0. |
| DemoPager.PagesUpToIsPrefix | apps/demo-app/src/app/app.ts:31-33 | Pages 1..n concatenated are the first `min(PageEnd(n, pageSize), length)` filtered items, where `PageEnd(n, pageSize) = n * pageSize` by `PageEndIsProduct`. |
| DemoPager.PagesUpToUnfiltered | apps/demo-app/src/app/app.ts:24-33 | With the empty query, pages 1..n concatenated are the first `min(PageEnd(n, pageSize), length)` items of the whole list. |
| DemoSession.DemoFetch | apps/demo-app/src/app/app.ts:59-65 | The demo's fetch function never throws or fails, and every page it returns carries `hasMore` and `totalItems`. |
| DemoSession.ResolveDemoFetch | libs/paginated-data-source/src/lib/paginated-data-source.ts:131-151 | A request served by the demo's fetch function completes with the page `fetchItems` returns for it, applied to the begun state. |
| DemoSession.ConstructShowsFirstPage | apps/demo-app/src/app/app.ts:59-72 | An accumulate-mode data source over `fetchItems` shows page 1 of the unfiltered list after its initial fetch. |
| DemoSession.SetQueryShowsFirstPage | libs/paginated-data-source/src/lib/paginated-data-source.ts:92-96 | From any accumulate-mode state, a new query and its fetch show page 1 of the list filtered by that query. |
| DemoSession.AppendNextPage | libs/paginated-data-source/src/lib/paginated-data-source.ts:118-148 | Suppose pages 1..k are shown and there is more. Fetching page k+1 in accumulate mode and applying its result then shows pages 1..k+1. |
| DemoSession.LoadNextPageShowsNextPage | libs/paginated-data-source/src/lib/paginated-data-source.ts:71-77 | Suppose pages 1..k are shown. A next-page load and its fetch then show pages 1..k+1. Once the list is exhausted, the load is refused and nothing changes. |
| DemoSession.ScrollDownShowsMorePages | libs/paginated-data-source/src/lib/paginated-data-source.ts:71-77 | `n` load-and-wait rounds from pages 1..k show pages 1..k+n. |
| DemoSession.UnfilteredPages | apps/demo-app/src/app/app.ts:24-25 | With the empty query, the pages shown are a prefix of the whole, unfiltered list. |
| DemoSession.DemoScrollShowsPages | apps/demo-app/src/app/app.ts:59-72 | The demo data source after construction and `n` next-page loads shows pages 1..n+1 of the unfiltered list, with the configured page size. |
| DemoSession.DemoShowsPrefix | apps/demo-app/src/app/app.ts:59-72 | Take the demo data source after construction and `n` next-page loads. Its items are the first `min(PageEnd(n + 1, pageSize), length)` items, that is `(n + 1) * pageSize` by `PageEndIsProduct`, equal to pages 1..n+1 fetched directly; the total is the list's length and nothing is loading. |
| DemoSession.ReloadRepeatsCurrentPage | libs/paginated-data-source/src/lib/paginated-data-source.ts:110-144 | In accumulate mode, reloading the current page appends that page's items a second time. |
| DataSourceScenarios.InitialPageIsLoaded | libs/paginated-data-source/src/lib/paginated-data-source.spec.ts:11-21 | Default construction shows `[1, 2, 3]`, with `hasMore` true and a total of 10. |
| DataSourceScenarios.NextPageIsAppended | libs/paginated-data-source/src/lib/paginated-data-source.spec.ts:23-36 | In accumulate mode, page 2 after page 1 shows `[1, 2, 3, 4]`, with `hasMore` false and a total of 4. |
| DataSourceScenarios.NextPageReplaces | libs/paginated-data-source/src/lib/paginated-data-source.spec.ts:38-55 | In replace mode, the list is `[1, 2]`, then empty while page 2 loads, then `[3, 4]`. |
| DataSourceScenarios.SetQueryStartsOver | libs/paginated-data-source/src/lib/paginated-data-source.spec.ts:57-73 | After two pages, `setQuery('abc')` requests page 1 with query `abc`, then shows `[1, 2]` with `hasMore` true and a total of 4. |

## Left out

- The fetch function's transport and timing are abstracted. It is a pure map from request to outcome, and `delay` and the console log in the demo's fetch function are not modelled. A fetch that never ends is one whose `CompleteFetch` never happens.
- The construction-time throw is not modelled. A fetch function that throws during the constructor's initial fetch makes the constructor itself throw, so no data source exists. The model shows only the state a throw leaves behind, in `Resolve`.
- Each fetch completion and each reset is one atomic step in the model, but the source publishes to the stream first and updates the flags afterwards:
  - the new items are published (paginated-data-source.ts:144) before `hasMore` and `totalItems` change (146-147) and before `finalize` clears `loading` (150);
  - the reset publishes `[]` (156) before `currentPage`, `hasMore` and `totalItems` are reset (157-159).

  A subscriber that reacts synchronously sees the new items with the old flags and `loading` still true, so a `loadNextPage()` it makes is refused. Those intermediate states are not modelled.
- Page numbers, page sizes, item totals and scroll indices are JavaScript `number`s in the source, and the model makes them unbounded integers. Fractional pages such as `loadPage(1.5)`, `NaN`, and the loss of precision above 2^53 are not modelled.
- `Resolve` applies the fetch function's outcome at once. Where another operation runs before a fetch's outcome arrives, the model uses `BeginFetch`/`CompleteFetch` steps directly.
- Only the first emitted value counts (`take(1)`). Later emissions of a multi-value observable are not modelled.
- The RxJS `BehaviorSubject` and Angular signals are replaced by record fields and the `published` snapshot log. `connect`/`disconnect` add no state.
- Overlapping fetches are not constrained. They are sequences of `BeginFetch`/`CompleteFetch` steps, and `StaleResultAfterSetQuery` shows the known race. Cancellation does not exist in the source.
- The request's `filtering` and `sorting` fields are never set by the data source and are omitted.
- PaginatedDropdown.ItemsEnriched: other fields of the item, copied by the object spread, are not modelled. The placeholder's absent `isSelected` is modelled as false.
- PaginatedDropdown.OnScroll: the scroll percentage uses exact arithmetic, not JavaScript's floating point. The two may differ when the percentage sits exactly at the threshold.
- The `opened` effect that calls `refreshViewport` is folded into `RefreshViewport`'s `viewportPresent` argument.
- The rest of the dropdown component is Angular plumbing and is not modelled:
  - form-control validation and `onSearch` with its debounce;
  - `onExpand`, `ngAfterViewInit` and overlay positioning;
  - `ControlValueAccessor` and the `updateValueAndValidity` effect.
- DemoPager.QueryFilter: whether an item matches a query (a lower-cased substring test of its label in the demo) is the abstract predicate `matches`. The mock item generator is replaced by an arbitrary item list.
- The material-autocomplete wrapper and the legacy duplicate `src/lib/model.ts` are not part of this model.

=== FILE: data_source_scenarios.dfy ===
/**
 The data source's test scenarios, replayed on the model: a fetch
 function backed by a table of pages, with an empty, final page for any
 page the table lacks.
 */
module DataSourceScenarios {
  import opened Options
  import opened PaginationModel
  import opened PaginatedDataSource

  function TableFetch(pages: map<int, PaginationResult<int>>): FetchFn<int> {
    (params: PaginationParams) => Returned(Emitted(if params.page in pages then pages[params.page] else EmptyResult()))
  }

  const TwoPages: map<int, PaginationResult<int>> := map[
    1 := PaginationResult([1, 2], Some(true), Some(4)),
    2 := PaginationResult([3, 4], Some(false), Some(4))]

  function DefaultConfig(pages: map<int, PaginationResult<int>>): PaginatedDataSourceConfig<int> {
    Config(Some(TableFetch(pages)), None, None, None)
  }

  /** Construction with the defaults loads page 1. */
  lemma InitialPageIsLoaded()
    ensures var s := Resolve(Construct(DefaultConfig(map[1 := PaginationResult([1, 2, 3], Some(true), Some(10))])));
            s.items == [1, 2, 3] && s.hasMore && s.totalItems == 10
  {
  }

  /** Accumulate mode appends page 2 to page 1. */
  lemma NextPageIsAppended()
    ensures var s1 := Resolve(Construct(DefaultConfig(TwoPages)));
            var s2 := Resolve(LoadNextPage(s1));
            s2.items == [1, 2, 3, 4] && !s2.hasMore && s2.totalItems == 4
  {
  }

  /** Replace mode shows page 2 alone, and shows nothing while it loads. */
  lemma NextPageReplaces()
    ensures var s1 := Resolve(Construct(Config(Some(TableFetch(TwoPages)), None, Some(false), None)));
            var begun := LoadNextPage(s1);
            var s2 := Resolve(begun);
            && s1.items == [1, 2]
            && begun.source.items == []
            && s2.items == [3, 4] && !s2.hasMore && s2.totalItems == 4
  {
  }

  /** A new query after two pages starts over at page 1. */
  lemma SetQueryStartsOver()
    ensures var s1 := Resolve(Construct(DefaultConfig(TwoPages)));
            var s2 := Resolve(LoadNextPage(s1));
            var step := SetQuery(s2, "abc");
            var s3 := Resolve(step);
            && step.request == Some(PaginationParams(1, DefaultPageSize, Some("abc")))
            && s3.items == [1, 2] && s3.hasMore && s3.totalItems == 4
  {
  }
}

=== FILE: demo_pager.dfy ===
/**
 The demo application's fetch function `fetchItems`: filter a fixed item
 list by the query, then cut out one page with JavaScript's `slice`.
 Whether an item matches a query (a case-insensitive substring test of
 its label in the demo) is the abstract predicate `matches`.
 */
module DemoPager {
  import opened Options
  import opened PaginationModel

  function Min(a: int, b: int): int {
    if a <= b then a else b
  }

  function Max(a: int, b: int): int {
    if a <= b then b else a
  }

  /** The items of `xs` that `keep` accepts, in their original order. */
  function Filter<T>(xs: seq<T>, keep: T -> bool): (r: seq<T>)
    ensures |r| <= |xs|
    ensures forall i :: 0 <= i < |r| ==> r[i] in xs && keep(r[i])
    ensures forall i :: 0 <= i < |xs| && keep(xs[i]) ==> xs[i] in r
  {
    if xs == [] then []
    else (if keep(xs[0]) then [xs[0]] else []) + Filter(xs[1..], keep)
  }

  /** Filtering a concatenation filters each part in turn: `Filter` keeps order. */
  lemma {:induction false} FilterConcat<T>(xs: seq<T>, ys: seq<T>, keep: T -> bool)
    ensures Filter(xs + ys, keep) == Filter(xs, keep) + Filter(ys, keep)
  {
    if xs == [] {
      assert xs + ys == ys;
    } else {
      assert (xs + ys)[1..] == xs[1..] + ys;
      FilterConcat(xs[1..], ys, keep);
    }
  }

  /** The list `fetchItems` pages through: all items when the query is
      absent or empty, otherwise the matching ones. */
  function QueryFilter<T>(all: seq<T>, matches: (string, T) -> bool, query: Option<string>): (r: seq<T>)
    ensures query == None || query == Some("") ==> r == all
    ensures query.Some? && query.value != "" ==>
      && (forall i :: 0 <= i < |r| ==> r[i] in all && matches(query.value, r[i]))
      && (forall i :: 0 <= i < |all| && matches(query.value, all[i]) ==> all[i] in r)
    ensures |r| <= |all|
  {
    if query.None? || query.value == "" then all
    else Filter(all, x => matches(query.value, x))
  }

  /** JavaScript's index normalisation for `Array.prototype.slice`:
      a negative index counts from the end; the result is clamped to `[0, len]`. */
  function SliceIndex(i: int, len: nat): (k: nat)
    ensures k <= len
    ensures 0 <= i ==> k == Min(i, len)
    ensures i < 0 ==> k == Max(len + i, 0)
  {
    if i < 0 then (if len + i < 0 then 0 else len + i)
    else if i < len then i else len
  }

  /** JavaScript's `xs.slice(start, end)`. */
  function Slice<T>(xs: seq<T>, start: int, end: int): (r: seq<T>)
    ensures start <= end ==> |r| <= end - start
    ensures end == 0 ==> r == []
    ensures 0 <= start <= end ==> r == xs[Min(start, |xs|)..Min(end, |xs|)]
    ensures start <= end < 0 ==> r == xs[Max(|xs| + start, 0)..Max(|xs| + end, 0)]
  {
    var from := SliceIndex(start, |xs|);
    var to := SliceIndex(end, |xs|);
    if from < to then xs[from..to] else []
  }

  /** `fetchItems`: page `params.page` (1-based) of size `params.pageSize`
      of the filtered list, with `hasMore` and `totalItems` always present. */
  function FetchItems<T>(all: seq<T>, matches: (string, T) -> bool, params: PaginationParams): (r: PaginationResult<T>)
    ensures r.totalItems == Some(|QueryFilter(all, matches, params.query)|)
    ensures r.hasMore == Some(params.page * params.pageSize < |QueryFilter(all, matches, params.query)|)
    ensures 0 <= params.pageSize ==> |r.items| <= params.pageSize
  {
    var filtered := QueryFilter(all, matches, params.query);
    var start := (params.page - 1) * params.pageSize;
    var end := start + params.pageSize;
    PageBounds(params.page, params.pageSize);
    PaginationResult(Slice(filtered, start, end), Some(end < |filtered|), Some(|filtered|))
  }

  /** Page `page` of size `size` ends where page `page + 1` starts. */
  lemma PageBounds(page: int, size: int)
    ensures (page - 1) * size + size == page * size
    ensures 1 <= page && 0 <= size ==> 0 <= (page - 1) * size
  {
  }

  /** Where page `page` ends, and page `page + 1` starts, in the filtered
      list before clipping to its length: `page * pageSize`, counted page by
      page. */
  function PageEnd(page: nat, pageSize: nat): nat {
    if page == 0 then 0 else PageEnd(page - 1, pageSize) + pageSize
  }

  lemma {:induction false} PageEndIsProduct(page: nat, pageSize: nat)
    ensures PageEnd(page, pageSize) == page * pageSize
  {
    if page > 0 {
      PageEndIsProduct(page - 1, pageSize);
      PageBounds(page, pageSize);
    }
  }

  /** From page 1 on, a page is the filtered list's slice from `(page - 1) * pageSize`
      to `page * pageSize`, clipped to the list's length, and `hasMore` says
      whether the list goes on past that end. */
  lemma FetchItemsIsClippedSlice<T>(all: seq<T>, matches: (string, T) -> bool, params: PaginationParams)
    requires 1 <= params.page && 0 <= params.pageSize
    ensures var filtered := QueryFilter(all, matches, params.query);
            var r := FetchItems(all, matches, params);
            && r.items == filtered[Min(PageEnd(params.page - 1, params.pageSize), |filtered|)
                                 ..Min(PageEnd(params.page, params.pageSize), |filtered|)]
            && r.hasMore == Some(PageEnd(params.page, params.pageSize) < |filtered|)
  {
    PageEndIsProduct(params.page - 1, params.pageSize);
    PageEndIsProduct(params.page, params.pageSize);
    PageBounds(params.page, params.pageSize);
  }

  /** Page 0 (what reloading before any fetch asks for) is always empty,
      yet `hasMore` says whether the list has any items at all. */
  lemma FetchItemsPageZero<T>(all: seq<T>, matches: (string, T) -> bool, params: PaginationParams)
    requires params.page == 0
    ensures var r := FetchItems(all, matches, params);
            r.items == [] && r.hasMore == Some(0 < |QueryFilter(all, matches, params.query)|)
  {
    var filtered := QueryFilter(all, matches, params.query);
    var start := (params.page - 1) * params.pageSize;
    PageBounds(params.page, params.pageSize);
    assert FetchItems(all, matches, params).items == Slice(filtered, start, 0);
  }

  /** A negative page counts back from the end of the filtered list: the
      slice from `len + (page - 1) * pageSize` to `len + page * pageSize`,
      each floored at 0. */
  lemma FetchItemsNegativePage<T>(all: seq<T>, matches: (string, T) -> bool, params: PaginationParams)
    requires params.page < 0 && 0 < params.pageSize
    ensures var filtered := QueryFilter(all, matches, params.query);
            FetchItems(all, matches, params).items
              == filtered[Max(|filtered| + (params.page - 1) * params.pageSize, 0)
                        ..Max(|filtered| + params.page * params.pageSize, 0)]
  {
    var filtered := QueryFilter(all, matches, params.query);
    var start := (params.page - 1) * params.pageSize;
    var end := params.page * params.pageSize;
    PageBounds(params.page, params.pageSize);
    NegativePageOffset(params.page, params.pageSize);
    assert start <= end < 0;
    assert FetchItems(all, matches, params).items == Slice(filtered, start, end);
  }

  lemma NegativePageOffset(page: int, size: int)
    requires page < 0 && 0 < size
    ensures page * size < 0
  {
  }

  /** The items of pages 1..n, fetched one after the other and concatenated. */
  function PagesUpTo<T>(all: seq<T>, matches: (string, T) -> bool, query: Option<string>, pageSize: int, n: nat): seq<T> {
    if n == 0 then []
    else PagesUpTo(all, matches, query, pageSize, n - 1) + FetchItems(all, matches, PaginationParams(n, pageSize, query)).items
  }

  /** Pages 1..n together are exactly the first `n * pageSize` filtered items
      (all of them once the list runs out): no item is skipped or repeated. */
  lemma {:induction false} PagesUpToIsPrefix<T>(all: seq<T>, matches: (string, T) -> bool, query: Option<string>, pageSize: nat, n: nat)
    ensures var filtered := QueryFilter(all, matches, query);
            PagesUpTo(all, matches, query, pageSize, n) == filtered[..Min(PageEnd(n, pageSize), |filtered|)]
  {
    if n > 0 {
      var filtered := QueryFilter(all, matches, query);
      PagesUpToIsPrefix(all, matches, query, pageSize, n - 1);
      FetchItemsIsClippedSlice(all, matches, PaginationParams(n, pageSize, query));
      ExtendPrefix(filtered, PagesUpTo(all, matches, query, pageSize, n - 1),
                   FetchItems(all, matches, PaginationParams(n, pageSize, query)).items,
                   Min(PageEnd(n - 1, pageSize), |filtered|), Min(PageEnd(n, pageSize), |filtered|));
    }
  }

  /** With the empty query, pages 1..n are the first `n * pageSize` items
      of the whole list. */
  lemma PagesUpToUnfiltered<T>(all: seq<T>, matches: (string, T) -> bool, pageSize: nat, n: nat)
    ensures PagesUpTo(all, matches, Some(""), pageSize, n) == all[..Min(PageEnd(n, pageSize), |all|)]
  {
    PagesUpToIsPrefix(all, matches, Some(""), pageSize, n);
  }

  /** A prefix followed by the next slice is the longer prefix. */
  lemma ExtendPrefix<T>(xs: seq<T>, prefix: seq<T>, next: seq<T>, lo: int, hi: int)
    requires 0 <= lo <= hi <= |xs|
    requires prefix == xs[..lo] && next == xs[lo..hi]
    ensures prefix + next == xs[..hi]
  {
    assert xs[..lo] + xs[lo..hi] == xs[..hi];
  }


}

=== FILE: demo_session.dfy ===
/**
 The demo application wires `fetchItems` into a data source in
 accumulate mode. Driving that data source one fetch at a time (each
 fetch completes before the next operation) scrolls through the filtered
 list without gaps or repetitions.
 */
module DemoSession {
  import opened Options
  import opened PaginationModel
  import opened PaginatedDataSource
  import opened DemoPager

  /** `fetchItems` as the data source's fetch function: it never throws or
      fails, and every page it returns says whether more follow and how many
      items there are in all. */
  function DemoFetch<T>(all: seq<T>, matches: (string, T) -> bool): (fetch: FetchFn<T>)
    ensures forall params :: fetch(params).Returned? && fetch(params).outcome.Emitted?
    ensures forall params :: fetch(params).outcome.result.hasMore.Some? && fetch(params).outcome.result.totalItems.Some?
  {
    (params: PaginationParams) => Returned(Emitted(FetchItems(all, matches, params)))
  }

  /** `s` shows pages 1..k of the list filtered by `query`, no fetch is in
      flight, and `hasMore` says whether page k + 1 has anything. While there
      is more, `currentPage` is k; once the list is exhausted, further
      `LoadNextPage` calls are refused, so the page counter stops. */
  ghost predicate ShowsPages<T>(s: DataSource<T>, all: seq<T>, matches: (string, T) -> bool, query: string, k: nat) {
    var filtered := QueryFilter(all, matches, Some(query));
    && s.Synced()
    && s.fetchFn == DemoFetch(all, matches)
    && s.concatData
    && !s.loading
    && 0 <= s.pageSize
    && s.query == query
    && s.items == filtered[..Min(PageEnd(k, s.pageSize), |filtered|)]
    && (s.hasMore <==> PageEnd(k, s.pageSize) < |filtered|)
    && (s.hasMore ==> s.currentPage == k)
    && s.totalItems == |filtered|
  }

  /** The first fetch of a freshly constructed accumulate-mode data source shows page 1. */
  lemma ConstructShowsFirstPage<T>(config: PaginatedDataSourceConfig<T>, all: seq<T>, matches: (string, T) -> bool)
    requires config.fetchFn == Some(DemoFetch(all, matches))
    requires config.concatData != Some(false) && config.triggerInitialFetch != Some(false)
    requires 0 <= config.pageSize.ValueOr(DefaultPageSize)
    ensures ShowsPages(Resolve(Construct(config)), all, matches, "", 1)
  {
    var step := Construct(config);
    FetchItemsIsClippedSlice(all, matches, step.request.value);
  }

  /** A new query, from any state, shows page 1 of the newly filtered list. */
  lemma SetQueryShowsFirstPage<T>(s: DataSource<T>, query: string, all: seq<T>, matches: (string, T) -> bool)
    requires s.fetchFn == DemoFetch(all, matches) && s.concatData && 0 <= s.pageSize
    ensures ShowsPages(Resolve(SetQuery(s, query)), all, matches, query, 1)
  {
    var step := SetQuery(s, query);
    FetchItemsIsClippedSlice(all, matches, step.request.value);
  }

  /** A request served by `fetchItems` completes with the page it returns. */
  lemma ResolveDemoFetch<T>(step: Step<T>, all: seq<T>, matches: (string, T) -> bool)
    requires step.source.fetchFn == DemoFetch(all, matches) && step.request.Some?
    ensures Resolve(step) == CompleteFetch(step.source, Emitted(FetchItems(all, matches, step.request.value)))
  {
  }

  /** Page k + 1, fetched and appended to a state showing pages 1..k that
      has more, leaves it showing pages 1..k+1. */
  lemma AppendNextPage<T>(s: DataSource<T>, all: seq<T>, matches: (string, T) -> bool, query: string, k: nat)
    requires ShowsPages(s, all, matches, query, k) && s.hasMore
    ensures var page := FetchItems(all, matches, PaginationParams(k + 1, s.pageSize, Some(query)));
            ShowsPages(CompleteFetch(BeginFetch(s, k + 1).source, Emitted(page)), all, matches, query, k + 1)
  {
    var filtered := QueryFilter(all, matches, Some(query));
    var params := PaginationParams(k + 1, s.pageSize, Some(query));
    var r := CompleteFetch(BeginFetch(s, k + 1).source, Emitted(FetchItems(all, matches, params)));
    FetchItemsIsClippedSlice(all, matches, params);
    var lo := Min(PageEnd(k, s.pageSize), |filtered|);
    var hi := Min(PageEnd(k + 1, s.pageSize), |filtered|);
    assert r.items == filtered[..lo] + filtered[lo..hi] == filtered[..hi];
  }

  /** One more `LoadNextPage` shows one more page (or nothing new at the end). */
  lemma LoadNextPageShowsNextPage<T>(s: DataSource<T>, all: seq<T>, matches: (string, T) -> bool, query: string, k: nat)
    requires ShowsPages(s, all, matches, query, k)
    ensures ShowsPages(Resolve(LoadNextPage(s)), all, matches, query, k + 1)
  {
    var step := LoadNextPage(s);
    if s.hasMore {
      assert step == BeginFetch(s, k + 1);
      ResolveDemoFetch(step, all, matches);
      AppendNextPage(s, all, matches, query, k);
    } else {
      assert step.source == s;
    }
  }

  /** `n` rounds of "load the next page and wait for it". */
  function ScrollDown<T>(s: DataSource<T>, n: nat): DataSource<T>
    decreases n
  {
    if n == 0 then s else ScrollDown(Resolve(LoadNextPage(s)), n - 1)
  }

  lemma {:induction false} ScrollDownShowsMorePages<T>(s: DataSource<T>, all: seq<T>, matches: (string, T) -> bool, query: string, k: nat, n: nat)
    requires ShowsPages(s, all, matches, query, k)
    ensures ShowsPages(ScrollDown(s, n), all, matches, query, k + n)
    decreases n
  {
    if n > 0 {
      LoadNextPageShowsNextPage(s, all, matches, query, k);
      ScrollDownShowsMorePages(Resolve(LoadNextPage(s)), all, matches, query, k + 1, n - 1);
    }
  }

  lemma {:induction false} ScrollDownKeepsPageSize<T>(s: DataSource<T>, n: nat)
    ensures ScrollDown(s, n).pageSize == s.pageSize
    decreases n
  {
    if n > 0 {
      ScrollDownKeepsPageSize(Resolve(LoadNextPage(s)), n - 1);
    }
  }

  /** With the empty query, the pages shown are a prefix of the whole list. */
  lemma UnfilteredPages<T>(s: DataSource<T>, all: seq<T>, matches: (string, T) -> bool, k: nat)
    requires ShowsPages(s, all, matches, "", k)
    ensures s.items == all[..Min(PageEnd(k, s.pageSize), |all|)]
    ensures s.totalItems == |all| && !s.loading
  {
    assert QueryFilter(all, matches, Some("")) == all;
  }

  /** After its initial fetch and `n` further next-page loads, the demo's
      data source shows pages 1..n+1 of the unfiltered list. */
  lemma DemoScrollShowsPages<T>(config: PaginatedDataSourceConfig<T>, all: seq<T>, matches: (string, T) -> bool, n: nat)
    requires config.fetchFn == Some(DemoFetch(all, matches))
    requires config.concatData != Some(false) && config.triggerInitialFetch != Some(false)
    requires 0 <= config.pageSize.ValueOr(DefaultPageSize)
    ensures var s := ScrollDown(Resolve(Construct(config)), n);
            && ShowsPages(s, all, matches, "", n + 1)
            && s.pageSize == config.pageSize.ValueOr(DefaultPageSize)
  {
    var first := Resolve(Construct(config));
    ConstructShowsFirstPage(config, all, matches);
    ScrollDownShowsMorePages(first, all, matches, "", 1, n);
    ScrollDownKeepsPageSize(first, n);
  }

  /** The demo's data source, after its initial fetch and `n` further
      next-page loads, shows exactly the first `PageEnd(n + 1, pageSize)`,
      that is `(n + 1) * pageSize`, items (or all of them), equal to pages
      1..n+1 fetched directly. */
  lemma DemoShowsPrefix<T>(config: PaginatedDataSourceConfig<T>, all: seq<T>, matches: (string, T) -> bool, n: nat)
    requires config.fetchFn == Some(DemoFetch(all, matches))
    requires config.concatData != Some(false) && config.triggerInitialFetch != Some(false)
    requires 0 <= config.pageSize.ValueOr(DefaultPageSize)
    ensures var pageSize := config.pageSize.ValueOr(DefaultPageSize);
            var s := ScrollDown(Resolve(Construct(config)), n);
            && s.items == all[..Min(PageEnd(n + 1, pageSize), |all|)]
            && s.items == PagesUpTo(all, matches, Some(""), pageSize, n + 1)
            && s.totalItems == |all|
            && !s.loading
  {
    var pageSize := config.pageSize.ValueOr(DefaultPageSize);
    var s := ScrollDown(Resolve(Construct(config)), n);
    DemoScrollShowsPages(config, all, matches, n);
    UnfilteredPages(s, all, matches, n + 1);
    PagesUpToUnfiltered(all, matches, pageSize, n + 1);
  }

  /** In accumulate mode, reloading the current page appends that page's
      items a second time. */
  lemma ReloadRepeatsCurrentPage<T>(s: DataSource<T>, all: seq<T>, matches: (string, T) -> bool, query: string, k: nat)
    requires ShowsPages(s, all, matches, query, k) && s.hasMore
    ensures var page := FetchItems(all, matches, PaginationParams(k, s.pageSize, Some(query))).items;
            Resolve(ReloadPage(s)).items == s.items + page
  {
  }
}

=== FILE: options.dfy ===
/** Optional values, for the TypeScript fields and parameters that may be `undefined`. */
module Options {

  datatype Option<T> = None | Some(value: T) {

    /** `x ?? fallback`, and a destructuring default `{ x = fallback }`. */
    function ValueOr(fallback: T): T {
      if Some? then value else fallback
    }
  }
}

=== FILE: paginated_data_source.dfy ===
/**
 The pagination state machine of `PaginatedDataSource<T>`.

 The state is an immutable record; each public operation is a pure
 function from the current state to the next one, paired with the
 request it sends to the fetch function (if any). A fetch is split into
 its synchronous start (`BeginFetch`) and the later arrival of its
 outcome (`CompleteFetch`), so interleavings of in-flight fetches can be
 written down as sequences of these two steps.
 */
module PaginatedDataSource {
  import opened Options
  import opened PaginationModel

  const DefaultPageSize: int := 10

  /** The fetch function a data source uses until it is given one:
      every request yields an empty, final page. */
  function DefaultFetch<T>(): FetchFn<T> {
    (params: PaginationParams) => Returned(Emitted(EmptyResult()))
  }

  /** The data source's signals and fetch function, plus `published`: every snapshot pushed
      to the replay-latest item stream, oldest first. */
  datatype DataSource<T> = DataSource(
    items: seq<T>,
    loading: bool,
    hasMore: bool,
    currentPage: int,
    query: string,
    pageSize: int,
    totalItems: int,
    concatData: bool,
    fetchFn: FetchFn<T>,
    published: seq<seq<T>>)
  {
    /** The stream's latest value (what a new subscriber receives) is `items`. */
    ghost predicate Synced() {
      |published| > 0 && published[|published| - 1] == items
    }
  }

  /** The state after an operation, and the request it issued (`None`: no fetch). */
  datatype Step<T> = Step(source: DataSource<T>, request: Option<PaginationParams>)

  /** The state the constructor builds before it (optionally) loads a page. */
  function Initial<T>(config: PaginatedDataSourceConfig<T>): (s: DataSource<T>)
    ensures s.Synced() && s.items == [] && s.published == [[]]
    ensures s.fetchFn == (if config.fetchFn.Some? then config.fetchFn.value else DefaultFetch())
    ensures !s.loading && s.hasMore && s.currentPage == 0 && s.query == "" && s.totalItems == 0
    ensures s.pageSize == (if config.pageSize.Some? then config.pageSize.value else DefaultPageSize)
    ensures s.concatData <==> config.concatData != Some(false)
  {
    DataSource([], false, true, 0, "", config.pageSize.ValueOr(DefaultPageSize), 0,
               config.concatData.ValueOr(true), config.fetchFn.ValueOr(DefaultFetch()), [[]])
  }

  /** The synchronous half of `fetchPage`: record the page, raise `loading`,
      clear the items in replace mode, and build the request. */
  function BeginFetch<T>(s: DataSource<T>, page: int): (r: Step<T>)
    ensures r.request == Some(PaginationParams(page, s.pageSize, Some(s.query)))
    ensures r.source.currentPage == page && r.source.loading
    ensures s.concatData ==> r.source.items == s.items && r.source.published == s.published
    ensures !s.concatData ==> r.source.items == [] && r.source.published == s.published + [[]]
    ensures r.source.hasMore == s.hasMore && r.source.totalItems == s.totalItems
    ensures r.source.query == s.query && r.source.pageSize == s.pageSize
    ensures r.source.concatData == s.concatData && r.source.fetchFn == s.fetchFn
    ensures s.Synced() ==> r.source.Synced()
  {
    var marked := s.(currentPage := page, loading := true);
    var cleared := if s.concatData then marked else marked.(items := [], published := marked.published + [[]]);
    Step(cleared, Some(PaginationParams(cleared.currentPage, cleared.pageSize, Some(cleared.query))))
  }

  /** Apply a page of results: merge or replace the items, publish them,
      take `hasMore`/`totalItems` with their defaults, and end loading. */
  function ApplyResult<T>(s: DataSource<T>, result: PaginationResult<T>): (r: DataSource<T>)
    ensures s.concatData ==> |r.items| == |s.items| + |result.items|
    ensures s.concatData ==> r.items[..|s.items|] == s.items && r.items[|s.items|..] == result.items
    ensures !s.concatData ==> r.items == result.items
    ensures r.published == s.published + [r.items] && r.Synced()
    ensures r.hasMore <==> result.hasMore == Some(true)
    ensures r.totalItems == (if result.totalItems.Some? then result.totalItems.value else 0)
    ensures !r.loading
    ensures r == s.(items := r.items, published := r.published, hasMore := r.hasMore,
                    totalItems := r.totalItems, loading := false)
  {
    var nextHasMore := result.hasMore.ValueOr(false);
    var nextTotal := result.totalItems.ValueOr(0);
    var newItems := if s.concatData then s.items + result.items else result.items;
    s.(items := newItems, published := s.published + [newItems],
       hasMore := nextHasMore, totalItems := nextTotal, loading := false)
  }

  /** The asynchronous half of `fetchPage`: the fetch's outcome arrives and is
      applied to whatever the state is at that moment. */
  function CompleteFetch<T>(s: DataSource<T>, outcome: FetchOutcome<T>): (r: DataSource<T>)
    ensures !r.loading
    ensures r.currentPage == s.currentPage && r.query == s.query
    ensures r.pageSize == s.pageSize && r.concatData == s.concatData && r.fetchFn == s.fetchFn
    ensures s.Synced() ==> r.Synced()
    ensures outcome.Emitted? ==>
      && r.items == (if s.concatData then s.items + outcome.result.items else outcome.result.items)
      && r.published == s.published + [r.items]
      && (r.hasMore <==> outcome.result.hasMore == Some(true))
      && r.totalItems == (if outcome.result.totalItems.Some? then outcome.result.totalItems.value else 0)
    ensures outcome.Errored? ==>
      && r.items == (if s.concatData then s.items else [])
      && r.published == s.published + [r.items]
      && !r.hasMore && r.totalItems == 0
    ensures outcome.Completed? ==> r == s.(loading := false)
  {
    match outcome
    case Emitted(result) => ApplyResult(s, result)
    case Errored => ApplyResult(s, EmptyResult())
    case Completed => s.(loading := false)
  }

  /** Load the page after the current one, unless a fetch is in flight or
      the last result said there is nothing more. */
  function LoadNextPage<T>(s: DataSource<T>): (r: Step<T>)
    ensures r.request.None? <==> s.loading || !s.hasMore
    ensures r.request.None? ==> r.source == s
    ensures r.request.Some? ==> r == BeginFetch(s, s.currentPage + 1)
  {
    if s.loading then Step(s, None)
    else if !s.hasMore then Step(s, None)
    else BeginFetch(s, s.currentPage + 1)
  }

  /** Build a data source; by default it immediately loads the first page. */
  function Construct<T>(config: PaginatedDataSourceConfig<T>): (r: Step<T>)
    ensures r.source.Synced() && r.source.query == ""
    ensures r.source.pageSize == config.pageSize.ValueOr(DefaultPageSize)
    ensures r.source.concatData <==> config.concatData != Some(false)
    ensures r.source.fetchFn == Initial(config).fetchFn
    ensures config.triggerInitialFetch != Some(false) ==>
      && r.request == Some(PaginationParams(1, r.source.pageSize, Some("")))
      && r.source.loading && r.source.currentPage == 1 && r.source.items == []
      && r.source.hasMore && r.source.totalItems == 0
    ensures config.triggerInitialFetch == Some(false) ==>
      r.request == None && r.source == Initial(config)
  {
    var s := Initial(config);
    if !config.triggerInitialFetch.ValueOr(true) then Step(s, None)
    else LoadNextPage(s)
  }

  /** Load a given page; only an in-flight fetch blocks it (not `hasMore`). */
  function LoadPage<T>(s: DataSource<T>, page: int): (r: Step<T>)
    ensures r.request.None? <==> s.loading
    ensures r.request.None? ==> r.source == s
    ensures !s.loading ==> r == BeginFetch(s, page)
  {
    if s.loading then Step(s, None)
    else BeginFetch(s, page)
  }

  /** Forget everything fetched so far (publishing the empty list). */
  function ResetPaginationState<T>(s: DataSource<T>): (r: DataSource<T>)
    ensures r.items == [] && r.published == s.published + [[]] && r.Synced()
    ensures r.currentPage == 0 && r.hasMore && r.totalItems == 0
    ensures r.loading == s.loading && r.query == s.query && r.pageSize == s.pageSize
    ensures r.concatData == s.concatData && r.fetchFn == s.fetchFn
  {
    s.(items := [], published := s.published + [[]], currentPage := 0, hasMore := true, totalItems := 0)
  }

  /** Change the query and start over from page 1, whether or not a fetch is in flight. */
  function SetQuery<T>(s: DataSource<T>, query: string): (r: Step<T>)
    ensures r.request == Some(PaginationParams(1, s.pageSize, Some(query)))
    ensures r.source.query == query && r.source.currentPage == 1 && r.source.loading
    ensures r.source.items == [] && r.source.hasMore && r.source.totalItems == 0
    ensures r.source.published == s.published + (if s.concatData then [[]] else [[], []])
    ensures r.source.pageSize == s.pageSize && r.source.concatData == s.concatData
    ensures r.source.fetchFn == s.fetchFn
    ensures r.source.Synced()
  {
    BeginFetch(ResetPaginationState(s.(query := query)), 1)
  }

  /** Clear the query and start over from page 1. */
  function RefreshData<T>(s: DataSource<T>): (r: Step<T>)
    ensures r == SetQuery(s, "")
  {
    var cleared := s.(query := "");
    BeginFetch(ResetPaginationState(cleared), 1)
  }

  /** Fetch the current page again (page 0 when nothing was fetched yet),
      keeping `hasMore`, `totalItems` and, in accumulate mode, the items. */
  function ReloadPage<T>(s: DataSource<T>): (r: Step<T>)
    ensures r.request == Some(PaginationParams(s.currentPage, s.pageSize, Some(s.query)))
    ensures r.source.currentPage == s.currentPage && r.source.loading
    ensures r.source.hasMore == s.hasMore && r.source.totalItems == s.totalItems
    ensures s.concatData ==> r.source.items == s.items
    ensures !s.concatData ==> r.source.items == [] && r.source.published == s.published + [[]]
    ensures s.Synced() ==> r.source.Synced()
    ensures r == BeginFetch(s, s.currentPage)
  {
    BeginFetch(s, s.currentPage)
  }

  /** Let the fetch an operation issued (if any) run to its end before
      anything else happens: the sequential use of the data source. A fetch
      function that throws leaves the state as `BeginFetch` left it; the
      exception itself propagates to the operation's caller. */
  function Resolve<T>(step: Step<T>): (r: DataSource<T>)
    ensures step.request.None? ==> r == step.source
    ensures step.request.Some? ==>
      var call := step.source.fetchFn(step.request.value);
      && (call.Threw? ==> r == step.source)
      && (call.Returned? ==> r == CompleteFetch(step.source, call.outcome))
    ensures r.query == step.source.query && r.pageSize == step.source.pageSize
    ensures r.concatData == step.source.concatData && r.fetchFn == step.source.fetchFn
    ensures r.currentPage == step.source.currentPage
    ensures step.source.Synced() ==> r.Synced()
    ensures r.loading <==>
      step.source.loading && (step.request.None? || step.source.fetchFn(step.request.value).Threw?)
  {
    match step.request
    case None => step.source
    case Some(params) =>
      match step.source.fetchFn(params)
      case Threw => step.source
      case Returned(outcome) => CompleteFetch(step.source, outcome)
  }

  /** A fetch function that throws synchronously escapes the error handling:
      `loading` stays raised, so `LoadNextPage` and `LoadPage` refuse every
      later request (only `SetQuery`, `RefreshData` and `ReloadPage` can start
      another fetch), and in replace mode the items stay cleared. */
  lemma ThrowingFetchLeavesLoading<T>(step: Step<T>, page: int)
    requires step.request.Some? && step.source.loading
    requires step.source.fetchFn(step.request.value) == Threw
    ensures Resolve(step) == step.source && Resolve(step).loading
    ensures LoadNextPage(Resolve(step)).request == None
    ensures LoadPage(Resolve(step), page).request == None
  {
  }

  /** Operations that skip the loading guard start a second fetch while one is
      in flight; the older fetch's outcome, arriving last-but-one, is applied on
      top of the reset state and clears `loading` although the newer fetch is
      still outstanding. */
  lemma StaleResultAfterSetQuery<T>(s: DataSource<T>, query: string, stale: PaginationResult<T>)
    requires !s.loading && s.hasMore
    ensures var older := LoadNextPage(s);
            var newer := SetQuery(older.source, query);
            var after := CompleteFetch(newer.source, Emitted(stale));
            && older.request.Some? && newer.request.Some?
            && older.request.value.query == Some(s.query)
            && after.query == query
            && after.items == stale.items
            && !after.loading
  {
  }

  /** `SetQuery` does not look at `loading`. */
  lemma SetQueryIgnoresLoading<T>(s: DataSource<T>, query: string)
    ensures SetQuery(s.(loading := true), query) == SetQuery(s.(loading := false), query)
  {
  }

  /** `LoadPage` does not look at `hasMore`, unlike `LoadNextPage`. */
  lemma LoadPageIgnoresHasMore<T>(s: DataSource<T>, page: int)
    requires !s.loading && !s.hasMore
    ensures LoadPage(s, page).request == Some(PaginationParams(page, s.pageSize, Some(s.query)))
    ensures LoadNextPage(s).request == None
  {
  }
}

=== FILE: paginated_dropdown.dfy ===
/**
 The load-more and display rules of `PaginatedDropdownComponent`, with the
 component's signals and inputs gathered into one record. The Angular
 effects become functions from the record to its next value.
 */
module PaginatedDropdown {
  import opened Options

  const NoResultsId: string := "__no_results__"
  const DefaultNoResultsText: string := "No results found."
  const DefaultScrollThreshold: int := 80
  const DefaultItemsInDropdown: int := 5

  /** A dropdown option (`labelText` is the source's `label`). An absent `disabled` or `isSelected` is `false`. */
  datatype SelectableItem = SelectableItem(id: string, labelText: string, isSelected: bool, disabled: bool)

  /** What the dropdown's rules read and write. */
  datatype Dropdown = Dropdown(
    items: seq<SelectableItem>,
    loading: bool,
    hasMore: bool,
    selectedValue: Option<SelectableItem>,
    noResultsText: string,
    displayedItems: seq<SelectableItem>,
    previousScrollIndex: int,
    scrollThreshold: int,
    itemsInDropdown: int)

  /** Loading has finished and produced nothing. */
  predicate HasEmptyResults(d: Dropdown) {
    !d.loading && |d.items| == 0
  }

  /** The component as created: the inputs at their defaults, nothing
      selected, nothing displayed and no scroll remembered. */
  function Created(items: seq<SelectableItem>, loading: bool): (d: Dropdown)
    ensures d.items == items && d.loading == loading
    ensures !d.hasMore && d.selectedValue == None && d.displayedItems == []
    ensures d.noResultsText == DefaultNoResultsText && d.previousScrollIndex == 0
    ensures d.scrollThreshold == DefaultScrollThreshold && d.itemsInDropdown == DefaultItemsInDropdown
  {
    Dropdown(items, loading, false, None, DefaultNoResultsText, [], 0,
             DefaultScrollThreshold, DefaultItemsInDropdown)
  }

  /** The placeholder option shown when there are no results. */
  function NoResultsItem(d: Dropdown): SelectableItem {
    SelectableItem(NoResultsId, d.noResultsText, false, true)
  }

  /** The option label: `displayOptionWith(item)` when that function is set,
      the item's own label otherwise. */
  function OptionLabel(displayOptionWith: Option<SelectableItem -> string>, item: SelectableItem): string {
    match displayOptionWith
    case Some(display) => display(item)
    case None => item.labelText
  }

  /** The options to render: the placeholder alone when there are no
      results, otherwise every item relabelled and marked selected when its
      id is the selected value's id. */
  function ItemsEnriched(d: Dropdown, displayOptionWith: Option<SelectableItem -> string>): (r: seq<SelectableItem>)
    ensures HasEmptyResults(d) ==> r == [NoResultsItem(d)]
    ensures !HasEmptyResults(d) ==> |r| == |d.items|
    ensures !HasEmptyResults(d) ==> forall i :: 0 <= i < |r| ==>
      && r[i].id == d.items[i].id
      && r[i].disabled == d.items[i].disabled
      && r[i].labelText == OptionLabel(displayOptionWith, d.items[i])
      && (r[i].isSelected <==> d.selectedValue.Some? && d.selectedValue.value.id == d.items[i].id)
    ensures |r| > 0 || d.loading
  {
    if HasEmptyResults(d) then [NoResultsItem(d)]
    else
      seq(|d.items|, i requires 0 <= i < |d.items| =>
        var item := d.items[i];
        item.(labelText := OptionLabel(displayOptionWith, item),
              isSelected := d.selectedValue.Some? && item.id == d.selectedValue.value.id))
  }

  /** The effect that refreshes `displayedItems`: while loading, a non-empty
      list stays on screen; otherwise the enriched items replace it. */
  function SyncDisplayedItems(d: Dropdown, displayOptionWith: Option<SelectableItem -> string>): (r: Dropdown)
    ensures r == d.(displayedItems := r.displayedItems)
    ensures d.loading && |d.displayedItems| > 0 ==> r.displayedItems == d.displayedItems
    ensures !d.loading ==> r.displayedItems == ItemsEnriched(d, displayOptionWith)
    ensures |d.displayedItems| == 0 ==> r.displayedItems == ItemsEnriched(d, displayOptionWith)
  {
    if d.loading && |d.displayedItems| > 0 then d
    else d.(displayedItems := ItemsEnriched(d, displayOptionWith))
  }

  /** Once loading has finished the dropdown never shows an empty list: it shows
      the enriched items, or the placeholder when there are none. */
  lemma SyncedListIsNeverBlank(d: Dropdown, displayOptionWith: Option<SelectableItem -> string>)
    requires !d.loading
    ensures var r := SyncDisplayedItems(d, displayOptionWith);
            && |r.displayedItems| > 0
            && (|d.items| == 0 ==> r.displayedItems == [NoResultsItem(d)])
            && (|d.items| > 0 ==> |r.displayedItems| == |d.items|)
  {
  }

  /** Running the effect twice changes nothing more. */
  lemma SyncDisplayedItemsIdempotent(d: Dropdown, displayOptionWith: Option<SelectableItem -> string>)
    ensures var once := SyncDisplayedItems(d, displayOptionWith);
            SyncDisplayedItems(once, displayOptionWith) == once
  {
    var once := SyncDisplayedItems(d, displayOptionWith);
    assert ItemsEnriched(once, displayOptionWith) == ItemsEnriched(d, displayOptionWith);
  }

  /** The scroll position as a percentage of the displayed list, computed
      exactly (the source uses floating point). */
  function ScrollPercentage(index: int, itemsInDropdown: int, count: int): (percent: real)
    requires count > 0
    ensures percent * count as real == ((index + itemsInDropdown) * 100) as real
    ensures index + itemsInDropdown >= count ==> percent >= 100.0
  {
    ((index + itemsInDropdown) as real / count as real) * 100.0
  }

  /** The percentage test is a cross-multiplied integer comparison. */
  lemma ScrollPercentageBelow(index: int, itemsInDropdown: int, count: int, threshold: int)
    requires count > 0
    ensures ScrollPercentage(index, itemsInDropdown, count) < threshold as real
            <==> (index + itemsInDropdown) * 100 < threshold * count
  {
    var a := (index + itemsInDropdown) as real;
    var n := count as real;
    var q := a / n;
    assert q * n == a;
    assert (q * 100.0) * n == a * 100.0;
    assert q * 100.0 < threshold as real <==> (q * 100.0) * n < (threshold as real) * n;
    assert ((index + itemsInDropdown) * 100) as real == a * 100.0;
    assert (threshold * count) as real == (threshold as real) * n;
  }

  /** The new state after a scroll event, and whether `loadMore` was emitted. */
  datatype ScrollOutcome = ScrollOutcome(dropdown: Dropdown, loadMore: bool)

  /** Whether the scroll handler ignores the event before looking at its direction. */
  predicate ScrollBlocked(d: Dropdown) {
    !d.hasMore || d.loading || |d.displayedItems| == 0 || HasEmptyResults(d)
  }

  /** The virtual-scroll handler: on a forward scroll, remember the index,
      and ask for more when the viewport's end reaches `scrollThreshold`
      percent of the displayed list. */
  function OnScroll(d: Dropdown, index: int): (r: ScrollOutcome)
    ensures ScrollBlocked(d) ==> r == ScrollOutcome(d, false)
    ensures !ScrollBlocked(d) && index <= d.previousScrollIndex ==> r == ScrollOutcome(d, false)
    ensures !ScrollBlocked(d) && d.previousScrollIndex < index ==>
      && r.dropdown == d.(previousScrollIndex := index)
      && (r.loadMore <==> (index + d.itemsInDropdown) * 100 >= d.scrollThreshold * |d.displayedItems|)
    ensures r.dropdown.previousScrollIndex >= d.previousScrollIndex
    ensures r.loadMore ==> r.dropdown.previousScrollIndex == index
  {
    if !d.hasMore then ScrollOutcome(d, false)
    else if d.loading then ScrollOutcome(d, false)
    else if |d.displayedItems| == 0 then ScrollOutcome(d, false)
    else if HasEmptyResults(d) then ScrollOutcome(d, false)
    else if d.previousScrollIndex >= index then ScrollOutcome(d, false)
    else
      var moved := d.(previousScrollIndex := index);
      ScrollPercentageBelow(index, d.itemsInDropdown, |d.displayedItems|, d.scrollThreshold);
      if ScrollPercentage(index, d.itemsInDropdown, |d.displayedItems|) < d.scrollThreshold as real
      then ScrollOutcome(moved, false)
      else ScrollOutcome(moved, true)
  }

  /** When loading has finished with nothing, the effect shows the
      placeholder alone, and scrolling over it never asks for more. */
  lemma EmptyResultsShowPlaceholderOnly(d: Dropdown, displayOptionWith: Option<SelectableItem -> string>, index: int)
    requires HasEmptyResults(d)
    ensures var shown := SyncDisplayedItems(d, displayOptionWith);
            && shown.displayedItems == [NoResultsItem(d)]
            && OnScroll(shown, index) == ScrollOutcome(shown, false)
  {
  }

  /** A freshly created dropdown with no items shows the default
      placeholder, and since `hasMore` starts false, no scroll asks for more
      until the data source says there is more. */
  lemma CreatedShowsDefaultPlaceholder(items: seq<SelectableItem>, loading: bool,
                                       displayOptionWith: Option<SelectableItem -> string>, index: int)
    ensures SyncDisplayedItems(Created([], false), displayOptionWith).displayedItems
            == [SelectableItem("__no_results__", "No results found.", false, true)]
    ensures OnScroll(Created(items, loading), index) == ScrollOutcome(Created(items, loading), false)
  {
  }

  /** With the default inputs (5 visible rows, an 80% threshold) and 10
      options displayed, scrolling to row 3 reaches the threshold and row 2
      does not. */
  lemma DefaultThresholdExample(d: Dropdown)
    requires !ScrollBlocked(d) && |d.displayedItems| == 10 && d.previousScrollIndex == 0
    requires d.scrollThreshold == DefaultScrollThreshold && d.itemsInDropdown == DefaultItemsInDropdown
    ensures OnScroll(d, 3).loadMore
    ensures !OnScroll(d, 2).loadMore
  {
  }

  /** A second event at the same index never asks for more again. */
  lemma RepeatedScrollLoadsNothing(d: Dropdown, index: int)
    ensures OnScroll(OnScroll(d, index).dropdown, index).loadMore == false
  {
  }

  /** Re-opening the panel: when the virtual-scroll viewport exists it is
      scrolled to the top and the remembered index goes back to 0. */
  function RefreshViewport(d: Dropdown, viewportPresent: bool): (r: Dropdown)
    ensures viewportPresent ==> r.previousScrollIndex == 0
    ensures r == d.(previousScrollIndex := r.previousScrollIndex)
    ensures !viewportPresent ==> r == d
  {
    if !viewportPresent then d
    else d.(previousScrollIndex := 0)
  }

  /** After a refresh, any scroll past the top counts as forward again, even
      one that was behind the index remembered before the refresh. */
  lemma RefreshReenablesForwardScroll(d: Dropdown, index: int)
    requires !ScrollBlocked(d) && 0 < index
    ensures OnScroll(RefreshViewport(d, true), index).dropdown.previousScrollIndex == index
    ensures OnScroll(RefreshViewport(d, true), index).loadMore
            <==> (index + d.itemsInDropdown) * 100 >= d.scrollThreshold * |d.displayedItems|
  {
  }
}

=== FILE: pagination_model.dfy ===
/**
 The values exchanged between the paginated data source and its fetch
 function: the request parameters, the (partially optional) result, and
 the three ways a one-shot fetch observable can end.
 */
module PaginationModel {
  import opened Options

  /** A page request. `page` is 1-based by convention; nothing enforces it.
      The optional filtering map and sort specification are not modelled. */
  datatype PaginationParams = PaginationParams(page: int, pageSize: int, query: Option<string>)

  /** A page of results. A missing `hasMore` or `totalItems` is `None`. */
  datatype PaginationResult<T> = PaginationResult(items: seq<T>, hasMore: Option<bool>, totalItems: Option<int>)

  /** How the observable returned by the fetch function ends, as seen
      through `catchError`, `take(1)` and `finalize`:
      - Emitted: its first value is `result`;
      - Errored: it raised an error before emitting;
      - Completed: it completed without emitting anything. */
  datatype FetchOutcome<T> = Emitted(result: PaginationResult<T>) | Errored | Completed

  /** What calling the fetch function does: it either returns an observable
      (which later ends with `outcome`), or throws before returning one. A
      throw happens outside the `catchError` that guards the observable. */
  datatype FetchCall<T> = Returned(outcome: FetchOutcome<T>) | Threw

  /** The fetch function, as a pure map from request to what the call does. */
  type FetchFn<T> = PaginationParams -> FetchCall<T>

  /** Construction options; `None` is an option left undefined (or, for
      `fetchFn`, any falsy value). */
  datatype PaginatedDataSourceConfig<T> = Config(
    fetchFn: Option<FetchFn<T>>,
    pageSize: Option<int>,
    concatData: Option<bool>,
    triggerInitialFetch: Option<bool>)

  /** The result substituted for a failed fetch. */
  function EmptyResult<T>(): PaginationResult<T> {
    PaginationResult([], Some(false), Some(0))
  }
}
